=== FILE: README.md ===
# Todo-list server: request-level model

A Dafny model of the request handling of a small multi-user todo-list web
server (`index.js`). The server keeps user accounts and todo items in two
MySQL tables (`todolist.accounts`, `todolist.items`) and logged-in sessions in
an in-memory object mapping a random session token to a user id. Each HTTP
handler is modelled as a pure transition from the state before a request to
the state after it plus the response (status code and body):

- `Accounts`: the accounts table as `map<int, Account>`, with the UNIQUE key on
  `username` as a subset type; `authenticateUser`, `registerUser`,
  `getUserById`. The SHA-256 digest is a function parameter (`Hasher`).
- `Sessions`: the session map; `checkAuth`, `requireAuth`, session creation at
  login and deletion at logout.
- `Items`: the items table as `map<int, Item>`; `createItem`, `updateItem`,
  `deleteItem` (every statement filtered by `id` and `user_id`),
  `retrieveListItems`.
- `Js`: request-body fields as `Missing | Str(s) | NonString`, enough to model
  JavaScript truthiness and `typeof` checks in the validation code.
- `Server`: the state record, the routed requests, one handler per route of
  `handleRequest`, `Step` (one request) and `Run` (a sequence of requests).
  The random session token and whether the store call throws come in per
  request as an `Env`.
- `Properties` and `Runs`: lemmas about single requests, short request
  sequences and arbitrary runs: the state invariant `Valid` (ids below their
  auto-increment counters, every item and session refers to an account),
  register/login round trip, duplicate-username rejection, session lifecycle,
  ownership isolation, and ownership stability.

Behaviour kept as written:
- A login with wrong credentials is never answered (`NoResponse`); the code
  writes no response on that branch.
- Login validates only falsiness. A password that is not a string reaches
  `hashPassword`, which throws once a row is found, so the answer is 500
  'Login failed'.
- `requireAuth` and the `/index.html` route reject any falsy user id, so a
  session bound to id 0 is refused. `Valid` states rule this out, because
  account ids start at 1.
- Logout only deletes when the cookie value is non-empty. It answers 200 in
  every case.

## Model

| member | source | states |
|---|---|---|
| Js.AsText | index.js:353-359 | only a non-empty string passes the item-text guard; falsy values and non-strings are refused |
| Accounts.FindByUsername | index.js:105-110 | finds the row carrying that username; if none is returned, no row carries it |
| Accounts.FindById | index.js:89-99 | returns the row for the id exactly when the id is in the table |
| Accounts.AuthenticateUser | index.js:102-123 | resolves to `{id, username}` exactly when both fields are strings and a row holds that username with passhash `hash(password)`; throws exactly when a row has the username but the password is not a string; otherwise null |
| Accounts.RegisterUser | index.js:125-144 | refuses exactly when the username is already taken; otherwise adds one row, under the fresh id, holding the username and `hash(password)`, and changes no other row |
| Sessions.CheckAuth | index.js:78-87 | resolves to `sessions[sid]` exactly when the `sessionId` cookie is present, non-empty and mapped; otherwise null |
| Sessions.RequireAuth | index.js:20-28 | lets a request through exactly when `checkAuth` resolves to a non-zero id, and then with that id |
| Sessions.Create | index.js:301-302 | the map gains the new token bound to the user; other tokens keep their user |
| Sessions.Destroy | index.js:204-210 | removes the cookie's token if present; removes nothing else and rebinds nothing |
| Sessions.DestroyIdempotent | index.js:208-210 | a second logout with the same cookie changes nothing |
| Sessions.DestroyRevokes | index.js:82-84 | after logout `checkAuth` with that cookie is null |
| Items.Insert | index.js:31-42 | the new row, owned by the caller, is under the fresh id; every other row is unchanged |
| Items.Update | index.js:44-55 | reports true exactly when a row has that id and owner; only that row's text changes; no owner changes; no row is added or removed |
| Items.Delete | index.js:57-68 | reports true exactly when a row has that id and owner; only that row goes; every remaining row is unchanged |
| Items.ListByOwner | index.js:146-159 | returns exactly the `(id, text)` pairs of the rows owned by the user |
| Items.CollectOwned | index.js:150-155 | any order of reading the table gives each of the user's rows once and nothing else |
| Server.Init | index.js:17 | the server starts with no sessions, from tables that satisfy the invariant |
| Server.HandleIndex | index.js:180-203 | 302 without a valid session or without an account row; 500 on a store error; otherwise 200 with that account's username; state unchanged |
| Server.HandleRegister | index.js:221-279 | falsy fields give 400 'required'; then non-strings give 400 'must be strings'; a taken name gives 409; a store error gives 500; otherwise 200 with the new id and one new account row; nothing else changes |
| Server.HandleLogin | index.js:280-328 | falsy fields give 400; a store or hashing error gives 500; a matching account gives 200 `{id, username}` and binds the fresh token to that id; anything else gives no response and changes nothing |
| Server.HandleLogout | index.js:204-220 | always 200 `{success:true}`; only the session map changes; the cookie's token is gone afterwards |
| Server.HandleList | index.js:329-342 | 401 without a session; 500 on a store error; otherwise 200 with exactly the caller's `(id, text)` pairs; state unchanged |
| Server.HandleCreate | index.js:343-369 | 401 before the text is checked; then 400 for bad text; then 500 on a store error; otherwise 201 with the fresh id and one new row owned by the caller |
| Server.HandleUpdate | index.js:370-407 | 401, then 400 for a NaN id, then 400 for bad text, then 500; 200 exactly when the caller owns a row with that id, and only that row's text changes; otherwise 404 with nothing changed |
| Server.HandleDelete | index.js:408-432 | 401, then 400 for a NaN id, then 500; 200 exactly when the caller owns a row with that id, and only that row goes; otherwise 404 with nothing changed |
| Server.Step | index.js:174-440 | GET `/` answers 200 with the login page and an unmatched route is never answered, both changing nothing; only registration changes the accounts, only login and logout change the sessions, only item create/update/delete change the items |
| Server.Run | index.js:491 | one response per request; with Runs.RunSnoc, each request is handled by `Step` on the state the previous one left |
| Properties.ValidAuthIsCheckAuth | index.js:20-28 | in a reachable state `requireAuth` lets through exactly what `checkAuth` resolves, and that id is an account |
| Properties.StepPreservesValid | index.js:174-440 | every request keeps ids below their counters and every item and session pointing at an account |
| Properties.RegisterThenLogin | index.js:102-144 | registering a fresh username and logging in with the same password answers 200 for the new id, and the new token authenticates as it |
| Properties.LoginThenIndex | index.js:180-203 | the token of a successful login opens the list page, 200, showing the username that logged in |
| Properties.DuplicateRegistration | index.js:136-139 | registering a username a second time answers 409 and leaves the state as the first registration left it |
| Properties.LoginAddsOneSession | index.js:297-302 | a successful login under a fresh token adds exactly one session, bound to the account matching the credentials |
| Properties.WrongPasswordNoSession | index.js:110-119 | a wrong password for an existing username gets no response and creates no session |
| Properties.SessionsOnlyFromLogin | index.js:302 | the only session a request can add is a login's fresh token; only login and logout change the session map |
| Properties.LogoutIdempotent | index.js:204-220 | logging out twice with one cookie leaves the same state and response as once |
| Properties.LogoutThenUnauthorized | index.js:208-210 | after logout every item request carrying that cookie is refused with 401 and changes nothing |
| Properties.UnauthenticatedTouchesNothing | index.js:331-332 | an item request without a resolvable session is refused with 401 before any other check and changes nothing |
| Properties.StepIsolation | index.js:44-68 | a request that does not act for a user leaves that user's items exactly as they were |
| Properties.StepKeepsOwners | index.js:47-49 | no request changes the owner of an item that survives it |
| Properties.NoExistenceLeak | index.js:394-400 | an update or delete by someone other than the owner changes nothing and answers exactly as for an absent id |
| Properties.CreateThenList | index.js:361-363 | a creation answers 201 with an id not yet in use, and the creator's next listing holds that id with that text |
| Properties.UpdateThenList | index.js:394-397 | after rewriting an own item, the listing shows the new text under the same id and no other text for it |
| Properties.TwoCreatesDistinct | index.js:31-38 | two creations from different sessions of one user get distinct ids, and both appear in the next listing from any session of that user |
| Runs.RunPreservesValid | index.js:174-440 | any sequence of requests keeps the invariant |
| Runs.RunConcat | index.js:491 | running two request sequences one after the other is running their concatenation, with the responses in request order |
| Runs.RunSnoc | index.js:491 | the response to each further request is `Step`'s answer on the state the earlier requests left, and the state afterwards is `Step`'s |
| Runs.ReachableIsValid | index.js:489-491 | every state reachable from start-up satisfies the invariant |
| Runs.RunIsolation | index.js:44-68 | a run in which no request acts for a user leaves that user's items exactly as they were |
| Runs.RunKeepsAccounts | index.js:125-135 | an account, once created, is never changed or removed by any run |
| Runs.RunAbsentStaysAbsent | index.js:57-68 | a deleted item id never comes back, because ids are never reused |
| Runs.RunKeepsOwners | index.js:44-68 | an item present before and after any run has the same owner at both ends |

## Left out

- HTTP plumbing: body streaming, `JSON.parse`, and cookie parsing and serialisation. A request is already routed and parsed. A body that fails to parse, which the code answers with 500, is not modelled.
- `Set-Cookie` and `Location` headers. Only the status and body are modelled.
- Routes that match nothing write no response. They are one `Unmatched` request.
- Page serving: the contents of `auth.html`/`index.html`, the placeholder replacement and `getHtmlRows` are not modelled. The page response carries only the username. The `{{rows}}` placeholder is given the list itself rather than `getHtmlRows`' markup; that is not modelled either. Reading `auth.html` or `index.html` can fail; the outer `catch` then answers 500 'Internal Server Error' in plain text. That outcome is file I/O and is not modelled: GET `/` always answers 200 here, and GET `/index.html` answers 500 only on a store error.
- SHA-256 and `crypto.randomBytes`: the digest is an arbitrary deterministic function parameter. The token comes from `Env`. Freshness of the token is a lemma hypothesis, not a guarantee: a colliding token overwrites, as the JavaScript assignment does.
- MySQL behaviour:
  - Usernames are compared by exact string equality. The store's collation may compare case- and trailing-space-insensitively.
  - Column widths, integer ranges of ids and foreign-key checks are not modelled.
  - `affectedRows > 0` is read as "a row matched id and owner". This reading assumes the driver's found-rows flag.
  - Auto-increment values consumed by failed inserts are not modelled. Ids come from one counter per table.
- Store failures: each is a single "the store call throws" flag per request. The modelled failure happens before the statement takes effect, so every 500 leaves the tables unchanged. A failure after the write, such as `connection.end()` rejecting in a `finally` block after the insert, update or delete was committed, would answer 500 with the row already written; that outcome is not modelled. A store error message containing 'required' or 'must be' would be answered 400 by the register handler; the model's store error is answered 500 'Registration failed'.
- Server.Init: the rows that `initDB` loads from `db.sql` and `insert.sql` at start-up are not modelled (those files are not part of this model); `Init` fixes only empty sessions and the invariant, and Runs.RunPreservesValid covers a run from any seeded start that satisfies it.
- Accounts.AuthenticateUser: a username that is not a string is treated as matching no row. What the driver does when binding such a value is not modelled.
- `parseInt`: the item id arrives as `Option<int>`; `None` stands for `NaN`.
- Inherited object keys of `sessions` such as `constructor` are not modelled. Looking one up yields a falsy user id, so the 401/302 outcome is the same.
- Logging to the console (`console.log(rows)` and the `console.error` call in each `catch`) is not modelled.
- Concurrency on the event loop: each request is one atomic step.
- `initDB`, `deinitDB`, server start-up and the SIGINT handler: these are I/O.
- `bot/main.py`, the Telegram front end, is not part of this model.

=== FILE: accounts.dfy ===
/** The `todolist.accounts` table and the password digest. */
module Accounts {
  import opened Wrappers
  import opened Js

  /** One row: the stored `passhash` is the hex SHA-256 digest of the password. */
  datatype Account = Account(username: string, passhash: string)

  /** The table's UNIQUE key on `username`: no two rows share a username. */
  ghost predicate UniqueNames(m: map<int, Account>) {
    forall a, b :: a in m && b in m && m[a].username == m[b].username ==> a == b
  }

  /** The table, keyed by its auto-increment `id`. The store refuses any
      insert that would break the unique key, so every reachable table
      satisfies it. */
  type AccountTable = m: map<int, Account> | UniqueNames(m) witness map[]

  /** `hashPassword`: SHA-256 in hex. Its internals are not modelled; the
      digest is a parameter, deterministic and otherwise arbitrary. */
  type Hasher = string -> string

  /** The `{id, username}` record `authenticateUser` resolves to. */
  datatype Principal = Principal(id: int, username: string)

  /** What `authenticateUser` does: resolve to a principal, resolve to null,
      or throw because `hashPassword` was handed a value that is not a string. */
  datatype AuthResult = Authenticated(user: Principal) | Rejected | HashFailed

  /** What `registerUser` does: resolve to the new row's id, or throw
      'Username already exists' when the insert hits the unique key. */
  datatype Registration = Inserted(table: AccountTable, id: int) | DuplicateUsername

  /** `SELECT ... FROM todolist.accounts WHERE username = ?`, first row. */
  function FindByUsername(t: AccountTable, name: string): (r: Option<int>)
    ensures r.Some? ==> r.value in t && t[r.value].username == name
    ensures r.None? ==> forall id :: id in t ==> t[id].username != name
  {
    if exists id :: id in t && t[id].username == name then
      var id :| id in t && t[id].username == name;
      Some(id)
    else
      None
  }

  /** `getUserById`: `SELECT id, username FROM todolist.accounts WHERE id = ?`. */
  function FindById(t: AccountTable, id: int): (r: Option<Account>)
    ensures r.Some? <==> id in t
    ensures r.Some? ==> r.value == t[id]
  {
    if id in t then Some(t[id]) else None
  }

  /** `authenticateUser(username, password)`. The row is looked up first; only
      when one exists is the password hashed and compared with plain equality.
      A username that is not a string matches no row (see README). */
  function AuthenticateUser(t: AccountTable, h: Hasher, name: Field, password: Field): (r: AuthResult)
    ensures r.Authenticated? <==>
      name.Str? && password.Str? && exists id :: id in t && t[id] == Account(name.s, h(password.s))
    ensures r.Authenticated? ==>
      && r.user.id in t
      && t[r.user.id] == Account(name.s, h(password.s))
      && r.user.username == name.s
    ensures r.HashFailed? <==>
      name.Str? && !password.Str? && exists id :: id in t && t[id].username == name.s
  {
    if !name.Str? then Rejected
    else match FindByUsername(t, name.s)
      case None => Rejected
      case Some(id) =>
        if !password.Str? then HashFailed
        else if h(password.s) == t[id].passhash then Authenticated(Principal(id, t[id].username))
        else Rejected
  }

  /** `registerUser(username, password)`: insert `(username, hashPassword(password))`
      under the auto-increment id `next`, unless the username is taken. */
  function RegisterUser(t: AccountTable, next: int, h: Hasher, name: string, password: string): (r: Registration)
    ensures r.DuplicateUsername? <==> exists id :: id in t && t[id].username == name
    ensures r.Inserted? ==>
      && r.id == next
      && r.table.Keys == t.Keys + {next}
      && r.table[next] == Account(name, h(password))
      && forall id :: id in t && id != next ==> r.table[id] == t[id]
  {
    if exists id :: id in t && t[id].username == name then
      DuplicateUsername
    else
      var t' := t[next := Account(name, h(password))];
      assert UniqueNames(t');
      Inserted(t', next)
  }
}

=== FILE: items.dfy ===
/** The `todolist.items` table; every statement on it is filtered by owner. */
module Items {

  /** One row: the item text and `user_id`, the owning account. */
  datatype Item = Item(text: string, owner: int)

  /** The table, keyed by its auto-increment `id`. */
  type ItemTable = map<int, Item>

  /** The rows belonging to `owner`: everything another user may not touch. */
  function Owned(t: ItemTable, owner: int): (r: ItemTable)
    ensures forall id :: id in r <==> id in t && t[id].owner == owner
    ensures forall id :: id in r ==> r[id] == t[id]
  {
    map id | id in t && t[id].owner == owner :: t[id]
  }

  /** `createItem`: `INSERT INTO todolist.items (text, user_id)` under the
      auto-increment id `next`. */
  function Insert(t: ItemTable, next: int, owner: int, text: string): (r: ItemTable)
    ensures r.Keys == t.Keys + {next}
    ensures r[next] == Item(text, owner)
    ensures forall id :: id in t && id != next ==> r[id] == t[id]
  {
    t[next := Item(text, owner)]
  }

  /** `updateItem`: `UPDATE ... SET text = ? WHERE id = ? AND user_id = ?`,
      reporting whether a row matched both conditions. */
  function Update(t: ItemTable, owner: int, id: int, text: string): (r: (ItemTable, bool))
    ensures r.1 <==> id in t && t[id].owner == owner
    ensures r.0.Keys == t.Keys
    ensures forall k :: k in t && k != id ==> r.0[k] == t[k]
    ensures id in t ==> r.0[id].owner == t[id].owner
    ensures r.1 ==> r.0[id].text == text
    ensures !r.1 ==> r.0 == t
  {
    if id in t && t[id].owner == owner then (t[id := t[id].(text := text)], true)
    else (t, false)
  }

  /** `deleteItem`: `DELETE ... WHERE id = ? AND user_id = ?`, reporting
      whether a row matched both conditions. */
  function Delete(t: ItemTable, owner: int, id: int): (r: (ItemTable, bool))
    ensures r.1 <==> id in t && t[id].owner == owner
    ensures r.0.Keys == if r.1 then t.Keys - {id} else t.Keys
    ensures forall k :: k in r.0 ==> r.0[k] == t[k]
  {
    if id in t && t[id].owner == owner then (t - {id}, true)
    else (t, false)
  }

  /** `retrieveListItems`: `SELECT id, text ... WHERE user_id = ?`. The store
      gives no order, so the rows are a set of `(id, text)` pairs. */
  function ListByOwner(t: ItemTable, owner: int): (r: set<(int, string)>)
    ensures forall id, text :: (id, text) in r <==> id in t && t[id] == Item(text, owner)
  {
    set id | id in t && t[id].owner == owner :: (id, t[id].text)
  }

  /** The rows of `retrieveListItems` in whatever order the store hands them
      over: each of the owner's items exactly once, and nothing else. */
  method CollectOwned(t: ItemTable, owner: int) returns (rows: seq<(int, string)>)
    ensures forall row :: row in rows <==> row in ListByOwner(t, owner)
    ensures forall i, j :: 0 <= i < j < |rows| ==> rows[i].0 != rows[j].0
  {
    rows := [];
    var pending := t.Keys;
    while pending != {}
      invariant pending <= t.Keys
      invariant forall i :: 0 <= i < |rows| ==>
        rows[i].0 in t && rows[i].0 !in pending && t[rows[i].0] == Item(rows[i].1, owner)
      invariant forall id :: id in t && id !in pending && t[id].owner == owner ==>
        (id, t[id].text) in rows
      invariant forall i, j :: 0 <= i < j < |rows| ==> rows[i].0 != rows[j].0
      decreases pending
    {
      assert exists id :: id in pending by {
        if forall id :: id !in pending {
          assert false;
        }
      }
      var id :| id in pending;
      if t[id].owner == owner {
        rows := rows + [(id, t[id].text)];
      }
      pending := pending - {id};
    }
  }
}

=== FILE: js.dfy ===
/** How the request handlers look at one field of a parsed JSON body. */
module Js {
  import opened Wrappers

  /** One field of a request body as JavaScript sees it:
      - `Missing` is every falsy value that is not a string: `undefined`
        when the key is absent, `null`, `false`, `0`, `NaN`;
      - `Str(s)` is a string, falsy exactly when it is empty;
      - `NonString` is every truthy value that is not a string: a non-zero
        number, `true`, an object or an array. */
  datatype Field = Missing | Str(s: string) | NonString

  /** JavaScript truthiness: `!field` is the negation of this. */
  predicate Truthy(f: Field) {
    match f
    case Missing => false
    case Str(s) => s != []
    case NonString => true
  }

  /** The item text the handlers accept: the guard
      `!data.text || typeof data.text !== 'string'` rejects everything but a
      non-empty string. */
  function AsText(f: Field): (r: Option<string>)
    ensures r.Some? <==> Truthy(f) && f.Str?
    ensures r.Some? ==> f == Str(r.value) && r.value != []
  {
    if f.Str? && f.s != [] then Some(f.s) else None
  }
}

=== FILE: properties.dfy ===
/** Properties of single requests and short request sequences. */
module Properties {
  import opened Wrappers
  import opened Js
  import opened Accounts
  import opened Sessions
  import opened Items
  import opened Server

  /** In a reachable state every session belongs to an account, whose id is
      positive, so `requireAuth` lets through exactly what `checkAuth` resolves. */
  lemma ValidAuthIsCheckAuth(s: State, cookie: Option<string>)
    requires Valid(s)
    ensures RequireAuth(s.sessions, cookie) == CheckAuth(s.sessions, cookie)
    ensures RequireAuth(s.sessions, cookie).Some? ==> RequireAuth(s.sessions, cookie).value in s.accounts
  {
  }

  /** Every request keeps the state reachable. */
  lemma StepPreservesValid(h: Hasher, s: State, req: Request, env: Env)
    requires Valid(s)
    ensures Valid(Step(h, s, req, env).next)
  {
  }

  /** Registering a new username and then logging in with the same
      credentials succeeds, for the id registration returned, and the new
      session authenticates as that id. */
  lemma RegisterThenLogin(h: Hasher, s: State, username: string, password: string, e1: Env, e2: Env)
    requires Valid(s)
    requires username != [] && password != []
    requires forall id :: id in s.accounts ==> s.accounts[id].username != username
    requires !e1.storeFails && !e2.storeFails
    requires IsSessionToken(e2.token)
    ensures var t1 := Step(h, s, Register(Str(username), Str(password)), e1);
            var t2 := Step(h, t1.next, Login(Str(username), Str(password)), e2);
            && t1.response == Reply(200, Registered(s.nextAccountId))
            && t2.response == Reply(200, LoggedIn(s.nextAccountId, username))
            && RequireAuth(t2.next.sessions, Some(e2.token)) == Some(s.nextAccountId)
  {
  }

  /** The token of a successful login opens the list page of the account
      that logged in. */
  lemma LoginThenIndex(h: Hasher, s: State, username: string, password: string, e1: Env, e2: Env)
    requires Valid(s)
    requires Ok(Step(h, s, Login(Str(username), Str(password)), e1).response)
    requires IsSessionToken(e1.token)
    requires !e2.storeFails
    ensures var s1 := Step(h, s, Login(Str(username), Str(password)), e1).next;
            Step(h, s1, IndexPage(Some(e1.token)), e2) == Transition(s1, Reply(200, IndexHtml(username)))
  {
  }

  /** A second registration of the same username is refused with 409 and
      leaves the state as the first one left it. */
  lemma DuplicateRegistration(h: Hasher, s: State, username: string, p1: string, p2: string, e1: Env, e2: Env)
    requires username != [] && p1 != [] && p2 != []
    requires !e1.storeFails && !e2.storeFails
    ensures var t1 := Step(h, s, Register(Str(username), Str(p1)), e1);
            var t2 := Step(h, t1.next, Register(Str(username), Str(p2)), e2);
            && t2.response == Reply(409, Failed(ExistsMsg))
            && t2.next == t1.next
  {
  }

  /** A successful login under a fresh token adds exactly that one session,
      bound to the authenticated account. */
  lemma LoginAddsOneSession(h: Hasher, s: State, username: Field, password: Field, env: Env)
    requires env.token !in s.sessions
    requires Ok(Step(h, s, Login(username, password), env).response)
    ensures var t := Step(h, s, Login(username, password), env);
            && t.next.sessions.Keys == s.sessions.Keys + {env.token}
            && |t.next.sessions| == |s.sessions| + 1
            && t.next.sessions[env.token] == t.response.payload.userId
            && s.accounts[t.response.payload.userId] == Account(username.s, h(password.s))
  {
  }

  /** Wrong password for an existing account: no answer and no session. */
  lemma WrongPasswordNoSession(h: Hasher, s: State, username: string, password: string, env: Env)
    requires username != [] && password != []
    requires exists id :: id in s.accounts && s.accounts[id].username == username
    requires forall id :: id in s.accounts && s.accounts[id].username == username ==>
      s.accounts[id].passhash != h(password)
    requires !env.storeFails
    ensures Step(h, s, Login(Str(username), Str(password)), env) == Transition(s, NoResponse)
  {
  }

  /** Every request but a login leaves no new session behind, and a login
      adds at most the one under its fresh token. */
  lemma SessionsOnlyFromLogin(h: Hasher, s: State, req: Request, env: Env)
    ensures var s' := Step(h, s, req, env).next;
            forall tok :: tok in s'.sessions && tok !in s.sessions ==> req.Login? && tok == env.token
    ensures !req.Login? && !req.Logout? ==> Step(h, s, req, env).next.sessions == s.sessions
  {
  }

  /** Logging out twice is the same as logging out once, and both answer 200. */
  lemma LogoutIdempotent(h: Hasher, s: State, cookie: Option<string>, e1: Env, e2: Env)
    ensures var t1 := Step(h, s, Logout(cookie), e1);
            var t2 := Step(h, t1.next, Logout(cookie), e2);
            && t1.response == Reply(200, Succeeded)
            && t2 == t1
  {
  }

  /** After logout, any item request carrying the same cookie is refused with
      401 and changes nothing. */
  lemma LogoutThenUnauthorized(h: Hasher, s: State, req: Request, e1: Env, e2: Env)
    requires IsItemApi(req)
    ensures var s1 := Step(h, s, Logout(req.cookie), e1).next;
            Step(h, s1, req, e2) == Answer(s1, 401, Failed(UnauthorizedMsg))
  {
  }

  /** An item request without a valid session is refused with 401 before
      anything else is looked at, and touches nothing. */
  lemma UnauthenticatedTouchesNothing(h: Hasher, s: State, req: Request, env: Env)
    requires IsItemApi(req)
    requires CheckAuth(s.sessions, req.cookie).None?
    ensures Step(h, s, req, env) == Answer(s, 401, Failed(UnauthorizedMsg))
  {
  }

  /** A request that does not act for `u` leaves `u`'s items exactly as
      they were: nobody else can create, rewrite or delete them. */
  lemma StepIsolation(h: Hasher, s: State, req: Request, env: Env, u: int)
    requires Valid(s)
    requires Actor(s, req) != Some(u)
    ensures Owned(Step(h, s, req, env).next.items, u) == Owned(s.items, u)
  {
  }

  /** Every request keeps the owner of each surviving item. */
  lemma StepKeepsOwners(h: Hasher, s: State, req: Request, env: Env)
    requires Valid(s)
    ensures var s' := Step(h, s, req, env).next;
            forall id :: id in s.items && id in s'.items ==> s'.items[id].owner == s.items[id].owner
  {
  }

  /** Update and delete of an item the caller does not own answer exactly as
      if the item did not exist, so they reveal nothing about it. */
  lemma NoExistenceLeak(h: Hasher, s: State, req: Request, env: Env, id: int)
    requires req.UpdateItem? || req.DeleteItem?
    requires req.itemId == Some(id)
    requires id in s.items
    requires RequireAuth(s.sessions, req.cookie) != Some(s.items[id].owner)
    ensures Step(h, s, req, env).next == s
    ensures Step(h, s, req, env).response == Step(h, s.(items := s.items - {id}), req, env).response
  {
  }

  /** Creating an item answers 201 with a fresh id, and the next listing by
      the same user holds that id with that text. */
  lemma CreateThenList(h: Hasher, s: State, cookie: Option<string>, text: string, e1: Env, e2: Env)
    requires Valid(s)
    requires CheckAuth(s.sessions, cookie).Some?
    requires text != []
    requires !e1.storeFails && !e2.storeFails
    ensures var t1 := Step(h, s, CreateItem(cookie, Str(text)), e1);
            var t2 := Step(h, t1.next, ListItems(cookie), e2);
            && t1.response == Reply(201, Created(s.nextItemId))
            && s.nextItemId !in s.items
            && t2.response.Reply? && t2.response.status == 200
            && (s.nextItemId, text) in t2.response.payload.rows
  {
  }

  /** Rewriting an own item keeps its id; the next listing shows the new
      text under that id and no other text for it. */
  lemma UpdateThenList(h: Hasher, s: State, cookie: Option<string>, id: int, text: string, e1: Env, e2: Env)
    requires Valid(s)
    requires CheckAuth(s.sessions, cookie).Some?
    requires id in s.items && s.items[id].owner == CheckAuth(s.sessions, cookie).value
    requires text != []
    requires !e1.storeFails && !e2.storeFails
    ensures var t1 := Step(h, s, UpdateItem(cookie, Some(id), Str(text)), e1);
            var t2 := Step(h, t1.next, ListItems(cookie), e2);
            && t1.response == Reply(200, Succeeded)
            && t2.response.Reply? && t2.response.status == 200
            && (id, text) in t2.response.payload.rows
            && forall other :: (id, other) in t2.response.payload.rows ==> other == text
  {
  }

  /** Two creations by the same user, possibly through different sessions,
      get distinct ids, and both items are in the listing that follows, from
      any session of that user. */
  lemma TwoCreatesDistinct(h: Hasher, s: State, c1: Option<string>, c2: Option<string>, c3: Option<string>,
                           x: string, y: string, e1: Env, e2: Env, e3: Env)
    requires Valid(s)
    requires CheckAuth(s.sessions, c1).Some?
    requires CheckAuth(s.sessions, c2) == CheckAuth(s.sessions, c1)
    requires CheckAuth(s.sessions, c3) == CheckAuth(s.sessions, c1)
    requires x != [] && y != []
    requires !e1.storeFails && !e2.storeFails && !e3.storeFails
    ensures var t1 := Step(h, s, CreateItem(c1, Str(x)), e1);
            var t2 := Step(h, t1.next, CreateItem(c2, Str(y)), e2);
            var t3 := Step(h, t2.next, ListItems(c3), e3);
            && t1.response.Reply? && t1.response.payload.Created?
            && t2.response.Reply? && t2.response.payload.Created?
            && t1.response.payload.itemId != t2.response.payload.itemId
            && t3.response.Reply? && t3.response.status == 200
            && (t1.response.payload.itemId, x) in t3.response.payload.rows
            && (t2.response.payload.itemId, y) in t3.response.payload.rows
  {
  }
}

=== FILE: runs.dfy ===
/** Properties of arbitrary sequences of requests, by induction on the run. */
module Runs {
  import opened Wrappers
  import opened Accounts
  import opened Items
  import opened Server
  import opened Properties

  /** Every state reachable from start-up satisfies `Valid`. */
  lemma {:induction false} RunPreservesValid(h: Hasher, s: State, steps: seq<(Request, Env)>)
    requires Valid(s)
    ensures Valid(Run(h, s, steps).last)
    decreases |steps|
  {
    if steps != [] {
      StepPreservesValid(h, s, steps[0].0, steps[0].1);
      RunPreservesValid(h, Step(h, s, steps[0].0, steps[0].1).next, steps[1..]);
    }
  }

  lemma ReachableIsValid(h: Hasher, steps: seq<(Request, Env)>)
    ensures Valid(Run(h, Init(), steps).last)
  {
    RunPreservesValid(h, Init(), steps);
  }

  /** Requests are handled strictly in sequence: running `a` and then `b`
      is running `a + b`, and the responses come back in request order. */
  lemma {:induction false} RunConcat(h: Hasher, s: State, a: seq<(Request, Env)>, b: seq<(Request, Env)>)
    ensures var mid := Run(h, s, a).last;
            Run(h, s, a + b) == Trace(Run(h, mid, b).last, Run(h, s, a).responses + Run(h, mid, b).responses)
    decreases |a|
  {
    if a == [] {
      assert a + b == b;
    } else {
      assert (a + b)[0] == a[0];
      assert (a + b)[1..] == a[1..] + b;
      RunConcat(h, Step(h, s, a[0].0, a[0].1).next, a[1..], b);
    }
  }

  /** Extending a run by one request applies `Step` to the state the run
      left and appends that request's response. */
  lemma RunSnoc(h: Hasher, s: State, steps: seq<(Request, Env)>, req: Request, env: Env)
    ensures var before := Run(h, s, steps);
            var t := Step(h, before.last, req, env);
            Run(h, s, steps + [(req, env)]) == Trace(t.next, before.responses + [t.response])
  {
    RunConcat(h, s, steps, [(req, env)]);
  }

  /** No request of the run acts for user `u`. */
  ghost predicate NeverActsFor(h: Hasher, s: State, steps: seq<(Request, Env)>, u: int)
    decreases |steps|
  {
    steps == [] ||
    (Actor(s, steps[0].0) != Some(u) && NeverActsFor(h, Step(h, s, steps[0].0, steps[0].1).next, steps[1..], u))
  }

  /** A run in which no request acts for `u` leaves `u`'s items untouched,
      whatever the other users do in between. */
  lemma {:induction false} RunIsolation(h: Hasher, s: State, steps: seq<(Request, Env)>, u: int)
    requires Valid(s)
    requires NeverActsFor(h, s, steps, u)
    ensures Owned(Run(h, s, steps).last.items, u) == Owned(s.items, u)
    decreases |steps|
  {
    if steps != [] {
      var s1 := Step(h, s, steps[0].0, steps[0].1).next;
      StepIsolation(h, s, steps[0].0, steps[0].1, u);
      StepPreservesValid(h, s, steps[0].0, steps[0].1);
      RunIsolation(h, s1, steps[1..], u);
    }
  }

  /** Accounts are never changed or deleted once created. */
  lemma {:induction false} RunKeepsAccounts(h: Hasher, s: State, steps: seq<(Request, Env)>)
    requires Valid(s)
    ensures forall id :: id in s.accounts ==>
      id in Run(h, s, steps).last.accounts && Run(h, s, steps).last.accounts[id] == s.accounts[id]
    decreases |steps|
  {
    if steps != [] {
      var s1 := Step(h, s, steps[0].0, steps[0].1).next;
      assert s.nextAccountId !in s.accounts;
      assert forall id :: id in s.accounts ==> id in s1.accounts && s1.accounts[id] == s.accounts[id];
      StepPreservesValid(h, s, steps[0].0, steps[0].1);
      RunKeepsAccounts(h, s1, steps[1..]);
    }
  }

  /** An item id below the counter that is absent stays absent: ids are never
      reused, so a deleted item never comes back. */
  lemma {:induction false} RunAbsentStaysAbsent(h: Hasher, s: State, steps: seq<(Request, Env)>, id: int)
    requires Valid(s)
    requires id < s.nextItemId && id !in s.items
    ensures id !in Run(h, s, steps).last.items
    decreases |steps|
  {
    if steps != [] {
      var s1 := Step(h, s, steps[0].0, steps[0].1).next;
      assert id < s1.nextItemId && id !in s1.items;
      StepPreservesValid(h, s, steps[0].0, steps[0].1);
      RunAbsentStaysAbsent(h, s1, steps[1..], id);
    }
  }

  /** An item present before and after a run has the same owner at both
      ends: ownership never changes. */
  lemma {:induction false} RunKeepsOwners(h: Hasher, s: State, steps: seq<(Request, Env)>, id: int)
    requires Valid(s)
    requires id in s.items && id in Run(h, s, steps).last.items
    ensures Run(h, s, steps).last.items[id].owner == s.items[id].owner
    decreases |steps|
  {
    if steps != [] {
      var s1 := Step(h, s, steps[0].0, steps[0].1).next;
      StepPreservesValid(h, s, steps[0].0, steps[0].1);
      if id in s1.items {
        StepKeepsOwners(h, s, steps[0].0, steps[0].1);
        RunKeepsOwners(h, s1, steps[1..], id);
      } else {
        assert id < s1.nextItemId;
        RunAbsentStaysAbsent(h, s1, steps[1..], id);
        assert false;
      }
    }
  }
}

=== FILE: server.dfy ===
/** The request handlers of the todo-list server, each one a transition from
    the state before the request to the state after it and the response. */
module Server {
  import opened Wrappers
  import opened Js
  import opened Accounts
  import opened Sessions
  import opened Items

  /** Everything a request can read or change: the two store tables with
      their auto-increment counters, and the in-memory session map. */
  datatype State = State(
    accounts: AccountTable,
    items: ItemTable,
    sessions: SessionMap,
    nextAccountId: int,
    nextItemId: int)

  /** A request after routing and body parsing. `cookie` is the `sessionId`
      cookie, `itemId` the result of `parseInt` on the path segment after
      `/api/items/` (`None` for `NaN`). */
  datatype Request =
    | AuthPage                                                  // GET /
    | IndexPage(cookie: Option<string>)                         // GET /index.html
    | Register(username: Field, password: Field)                // POST /register
    | Login(username: Field, password: Field)                   // POST /login
    | Logout(cookie: Option<string>)                            // POST /logout
    | ListItems(cookie: Option<string>)                         // GET /api/items
    | CreateItem(cookie: Option<string>, text: Field)           // POST /api/items
    | UpdateItem(cookie: Option<string>, itemId: Option<int>, text: Field)  // PUT /api/items/{id}
    | DeleteItem(cookie: Option<string>, itemId: Option<int>)   // DELETE /api/items/{id}
    | Unmatched                                                 // any other method and path

  /** What the world outside the handlers decides for one request: the
      token `generateSessionId` would return, and whether the store call
      the request makes throws. */
  datatype Env = Env(token: string, storeFails: bool)

  /** The body of a response. */
  datatype Payload =
    | AuthHtml                                   // the login/register page
    | IndexHtml(username: string)                // the list page of that user
    | Redirect                                   // 302 to `/`, empty body
    | Succeeded                                  // { success: true }
    | Registered(userId: int)                    // { success: true, userId, redirect }
    | LoggedIn(userId: int, username: string)    // { success: true, user: { id, username }, redirect }
    | ItemList(rows: set<(int, string)>)         // { success: true, items }
    | Created(itemId: int)                       // { success: true, itemId }
    | Failed(error: string)                      // { success: false, error }
    | InternalError                              // text/plain 'Internal Server Error'

  /** `NoResponse` is a request the handler never answers. */
  datatype Response = Reply(status: int, payload: Payload) | NoResponse

  datatype Transition = Transition(next: State, response: Response)

  const RequiredMsg := "Username and password are required"
  const MustBeStringsMsg := "Username and password must be strings"
  const ExistsMsg := "Username already exists"
  const RegistrationFailedMsg := "Registration failed"
  const LoginFailedMsg := "Login failed"
  const UnauthorizedMsg := "Unauthorized"
  const TextMsg := "Text is required and must be a string"
  const InvalidIdMsg := "Invalid item ID"
  const NotFoundMsg := "Item not found"
  const GetFailedMsg := "Failed to get items"
  const CreateFailedMsg := "Failed to create item"
  const UpdateFailedMsg := "Failed to update item"
  const DeleteFailedMsg := "Failed to delete item"

  /** A state the server can start from: no sessions (the `sessions` object
      is created empty), and tables that satisfy the invariant. */
  function Init(): (s: State)
    ensures Valid(s) && s.sessions == map[]
  {
    State(map[], map[], map[], 1, 1)
  }

  /** What every reachable state satisfies: ids are positive and below their
      counters, and every item and every session refers to an account. */
  ghost predicate Valid(s: State) {
    && 1 <= s.nextAccountId
    && 1 <= s.nextItemId
    && (forall id :: id in s.accounts ==> 1 <= id < s.nextAccountId)
    && (forall id :: id in s.items ==> 1 <= id < s.nextItemId && s.items[id].owner in s.accounts)
    && (forall t :: t in s.sessions ==> s.sessions[t] in s.accounts)
  }

  /** Every answer of a handler that does not change the state. */
  function Answer(s: State, status: int, payload: Payload): Transition
  {
    Transition(s, Reply(status, payload))
  }

  /** A successful answer: 200, or 201 for a created item. */
  predicate Ok(r: Response) {
    r.Reply? && (r.status == 200 || r.status == 201)
  }

  /** GET /index.html: 302 unless the session resolves to a truthy user id
      whose account row exists. A store error escapes to the outer `catch`,
      which answers 500 in plain text. */
  function HandleIndex(s: State, cookie: Option<string>, env: Env): (t: Transition)
    ensures t.next == s
    ensures RequireAuth(s.sessions, cookie).None? ==> t.response == Reply(302, Redirect)
    ensures RequireAuth(s.sessions, cookie).Some? && env.storeFails ==> t.response == Reply(500, InternalError)
    ensures Ok(t.response) <==>
      !env.storeFails && RequireAuth(s.sessions, cookie).Some? && RequireAuth(s.sessions, cookie).value in s.accounts
    ensures Ok(t.response) ==>
      t.response == Reply(200, IndexHtml(s.accounts[RequireAuth(s.sessions, cookie).value].username))
    ensures !Ok(t.response) && !env.storeFails ==> t.response == Reply(302, Redirect)
  {
    match RequireAuth(s.sessions, cookie)
    case None => Answer(s, 302, Redirect)
    case Some(uid) =>
      if env.storeFails then Answer(s, 500, InternalError)
      else match FindById(s.accounts, uid)
        case None => Answer(s, 302, Redirect)
        case Some(a) => Answer(s, 200, IndexHtml(a.username))
  }

  /** POST /register. Both fields are validated before anything is inserted:
      falsy first (400 'required'), then non-string (400 'must be strings');
      a taken username is 409 and inserts nothing. */
  function HandleRegister(h: Hasher, s: State, username: Field, password: Field, env: Env): (t: Transition)
    ensures !Truthy(username) || !Truthy(password) ==> t == Answer(s, 400, Failed(RequiredMsg))
    ensures Truthy(username) && Truthy(password) && !(username.Str? && password.Str?) ==>
      t == Answer(s, 400, Failed(MustBeStringsMsg))
    ensures Truthy(username) && Truthy(password) && username.Str? && password.Str? && env.storeFails ==>
      t == Answer(s, 500, Failed(RegistrationFailedMsg))
    ensures (&& Truthy(username) && Truthy(password) && username.Str? && password.Str? && !env.storeFails
             && exists id :: id in s.accounts && s.accounts[id].username == username.s) ==>
      t == Answer(s, 409, Failed(ExistsMsg))
    ensures Ok(t.response) <==>
      && Truthy(username) && Truthy(password) && username.Str? && password.Str? && !env.storeFails
      && forall id :: id in s.accounts ==> s.accounts[id].username != username.s
    ensures Ok(t.response) ==>
      && t.response == Reply(200, Registered(s.nextAccountId))
      && t.next.accounts.Keys == s.accounts.Keys + {s.nextAccountId}
      && t.next.accounts[s.nextAccountId] == Account(username.s, h(password.s))
      && (forall id :: id in s.accounts && id != s.nextAccountId ==> t.next.accounts[id] == s.accounts[id])
      && t.next == s.(accounts := t.next.accounts, nextAccountId := s.nextAccountId + 1)
    ensures !Ok(t.response) ==> t.next == s
  {
    if !Truthy(username) || !Truthy(password) then Answer(s, 400, Failed(RequiredMsg))
    else if !username.Str? || !password.Str? then Answer(s, 400, Failed(MustBeStringsMsg))
    else if env.storeFails then Answer(s, 500, Failed(RegistrationFailedMsg))
    else match RegisterUser(s.accounts, s.nextAccountId, h, username.s, password.s)
      case DuplicateUsername => Answer(s, 409, Failed(ExistsMsg))
      case Inserted(table, id) =>
        Transition(s.(accounts := table, nextAccountId := s.nextAccountId + 1), Reply(200, Registered(id)))
  }

  /** POST /login. Only falsiness is validated (400). A match creates a
      session under the fresh token; wrong credentials are never answered;
      a password that is not a string makes `hashPassword` throw (500). */
  function HandleLogin(h: Hasher, s: State, username: Field, password: Field, env: Env): (t: Transition)
    ensures !Truthy(username) || !Truthy(password) ==> t == Answer(s, 400, Failed(RequiredMsg))
    ensures Truthy(username) && Truthy(password) && env.storeFails ==> t == Answer(s, 500, Failed(LoginFailedMsg))
    ensures Ok(t.response) <==>
      && Truthy(username) && Truthy(password) && !env.storeFails && username.Str? && password.Str?
      && exists id :: id in s.accounts && s.accounts[id] == Account(username.s, h(password.s))
    ensures Ok(t.response) ==>
      && t.response.status == 200
      && t.response.payload.LoggedIn?
      && t.response.payload.userId in s.accounts
      && s.accounts[t.response.payload.userId] == Account(username.s, h(password.s))
      && t.response.payload.username == username.s
      && t.next == s.(sessions := s.sessions[env.token := t.response.payload.userId])
    ensures (&& Truthy(username) && Truthy(password) && !env.storeFails && username.Str? && password.Str?
             && !Ok(t.response)) ==>
      t == Transition(s, NoResponse)
    ensures (&& Truthy(username) && Truthy(password) && !env.storeFails && username.Str? && !password.Str?
             && exists id :: id in s.accounts && s.accounts[id].username == username.s) ==>
      t == Answer(s, 500, Failed(LoginFailedMsg))
    ensures Truthy(username) && Truthy(password) && !env.storeFails && !username.Str? ==>
      t == Transition(s, NoResponse)
    ensures (&& Truthy(username) && Truthy(password) && !env.storeFails && username.Str? && !password.Str?
             && forall id :: id in s.accounts ==> s.accounts[id].username != username.s) ==>
      t == Transition(s, NoResponse)
    ensures !Ok(t.response) ==> t.next == s
  {
    if !Truthy(username) || !Truthy(password) then Answer(s, 400, Failed(RequiredMsg))
    else if env.storeFails then Answer(s, 500, Failed(LoginFailedMsg))
    else match AuthenticateUser(s.accounts, h, username, password)
      case Rejected => Transition(s, NoResponse)
      case HashFailed => Answer(s, 500, Failed(LoginFailedMsg))
      case Authenticated(user) =>
        Transition(s.(sessions := Create(s.sessions, env.token, user.id)),
                   Reply(200, LoggedIn(user.id, user.username)))
  }

  /** POST /logout: drop the session if there is one; always 200. */
  function HandleLogout(s: State, cookie: Option<string>): (t: Transition)
    ensures t.response == Reply(200, Succeeded)
    ensures t.next == s.(sessions := t.next.sessions)
    ensures CheckAuth(t.next.sessions, cookie).None?
    ensures forall tok :: tok in t.next.sessions <==> tok in s.sessions && (tok == [] || cookie != Some(tok))
    ensures forall tok :: tok in t.next.sessions ==> t.next.sessions[tok] == s.sessions[tok]
  {
    Transition(s.(sessions := Destroy(s.sessions, cookie)), Reply(200, Succeeded))
  }

  /** GET /api/items: the caller's own rows, and nobody else's. */
  function HandleList(s: State, cookie: Option<string>, env: Env): (t: Transition)
    ensures t.next == s
    ensures RequireAuth(s.sessions, cookie).None? ==> t.response == Reply(401, Failed(UnauthorizedMsg))
    ensures RequireAuth(s.sessions, cookie).Some? && env.storeFails ==> t.response == Reply(500, Failed(GetFailedMsg))
    ensures Ok(t.response) <==> RequireAuth(s.sessions, cookie).Some? && !env.storeFails
    ensures Ok(t.response) ==>
      && t.response.status == 200
      && t.response.payload.ItemList?
      && forall id, text :: (id, text) in t.response.payload.rows <==>
           id in s.items && s.items[id] == Item(text, RequireAuth(s.sessions, cookie).value)
  {
    match RequireAuth(s.sessions, cookie)
    case None => Answer(s, 401, Failed(UnauthorizedMsg))
    case Some(uid) =>
      if env.storeFails then Answer(s, 500, Failed(GetFailedMsg))
      else Answer(s, 200, ItemList(ListByOwner(s.items, uid)))
  }

  /** POST /api/items: insert a row owned by the caller under a fresh id; 201. */
  function HandleCreate(s: State, cookie: Option<string>, text: Field, env: Env): (t: Transition)
    ensures RequireAuth(s.sessions, cookie).None? ==> t == Answer(s, 401, Failed(UnauthorizedMsg))
    ensures RequireAuth(s.sessions, cookie).Some? && AsText(text).None? ==> t == Answer(s, 400, Failed(TextMsg))
    ensures RequireAuth(s.sessions, cookie).Some? && AsText(text).Some? && env.storeFails ==>
      t == Answer(s, 500, Failed(CreateFailedMsg))
    ensures Ok(t.response) <==> RequireAuth(s.sessions, cookie).Some? && AsText(text).Some? && !env.storeFails
    ensures Ok(t.response) ==>
      && t.response == Reply(201, Created(s.nextItemId))
      && t.next == s.(items := t.next.items, nextItemId := s.nextItemId + 1)
      && t.next.items.Keys == s.items.Keys + {s.nextItemId}
      && t.next.items[s.nextItemId] == Item(text.s, RequireAuth(s.sessions, cookie).value)
      && forall id :: id in s.items && id != s.nextItemId ==> t.next.items[id] == s.items[id]
    ensures !Ok(t.response) ==> t.next == s
  {
    match RequireAuth(s.sessions, cookie)
    case None => Answer(s, 401, Failed(UnauthorizedMsg))
    case Some(uid) =>
      match AsText(text)
      case None => Answer(s, 400, Failed(TextMsg))
      case Some(x) =>
        if env.storeFails then Answer(s, 500, Failed(CreateFailedMsg))
        else Transition(s.(items := Insert(s.items, s.nextItemId, uid, x), nextItemId := s.nextItemId + 1),
                        Reply(201, Created(s.nextItemId)))
  }

  /** PUT /api/items/{id}: authentication first, then the id, then the text;
      only the caller's own row with that id is rewritten. */
  function HandleUpdate(s: State, cookie: Option<string>, itemId: Option<int>, text: Field, env: Env): (t: Transition)
    ensures RequireAuth(s.sessions, cookie).None? ==> t == Answer(s, 401, Failed(UnauthorizedMsg))
    ensures RequireAuth(s.sessions, cookie).Some? && itemId.None? ==> t == Answer(s, 400, Failed(InvalidIdMsg))
    ensures RequireAuth(s.sessions, cookie).Some? && itemId.Some? && AsText(text).None? ==>
      t == Answer(s, 400, Failed(TextMsg))
    ensures RequireAuth(s.sessions, cookie).Some? && itemId.Some? && AsText(text).Some? && env.storeFails ==>
      t == Answer(s, 500, Failed(UpdateFailedMsg))
    ensures t.next == s.(items := t.next.items)
    ensures t.next.items.Keys == s.items.Keys
    ensures forall id :: id in s.items ==> t.next.items[id].owner == s.items[id].owner
    ensures Ok(t.response) <==>
      && RequireAuth(s.sessions, cookie).Some? && itemId.Some? && AsText(text).Some? && !env.storeFails
      && itemId.value in s.items && s.items[itemId.value].owner == RequireAuth(s.sessions, cookie).value
    ensures Ok(t.response) ==>
      && t.response == Reply(200, Succeeded)
      && t.next.items[itemId.value].text == text.s
      && forall id :: id in s.items && id != itemId.value ==> t.next.items[id] == s.items[id]
    ensures (&& RequireAuth(s.sessions, cookie).Some? && itemId.Some? && AsText(text).Some? && !env.storeFails
             && !Ok(t.response)) ==>
      t == Answer(s, 404, Failed(NotFoundMsg))
    ensures !Ok(t.response) ==> t.next == s
  {
    match RequireAuth(s.sessions, cookie)
    case None => Answer(s, 401, Failed(UnauthorizedMsg))
    case Some(uid) =>
      match itemId
      case None => Answer(s, 400, Failed(InvalidIdMsg))
      case Some(id) =>
        match AsText(text)
        case None => Answer(s, 400, Failed(TextMsg))
        case Some(x) =>
          if env.storeFails then Answer(s, 500, Failed(UpdateFailedMsg))
          else
            var (table, updated) := Update(s.items, uid, id, x);
            if updated then Transition(s.(items := table), Reply(200, Succeeded))
            else Answer(s, 404, Failed(NotFoundMsg))
  }

  /** DELETE /api/items/{id}: authentication first, then the id; only the
      caller's own row with that id is removed. */
  function HandleDelete(s: State, cookie: Option<string>, itemId: Option<int>, env: Env): (t: Transition)
    ensures RequireAuth(s.sessions, cookie).None? ==> t == Answer(s, 401, Failed(UnauthorizedMsg))
    ensures RequireAuth(s.sessions, cookie).Some? && itemId.None? ==> t == Answer(s, 400, Failed(InvalidIdMsg))
    ensures RequireAuth(s.sessions, cookie).Some? && itemId.Some? && env.storeFails ==>
      t == Answer(s, 500, Failed(DeleteFailedMsg))
    ensures t.next == s.(items := t.next.items)
    ensures forall id :: id in t.next.items ==> id in s.items && t.next.items[id] == s.items[id]
    ensures Ok(t.response) <==>
      && RequireAuth(s.sessions, cookie).Some? && itemId.Some? && !env.storeFails
      && itemId.value in s.items && s.items[itemId.value].owner == RequireAuth(s.sessions, cookie).value
    ensures Ok(t.response) ==>
      && t.response == Reply(200, Succeeded)
      && t.next.items.Keys == s.items.Keys - {itemId.value}
    ensures (&& RequireAuth(s.sessions, cookie).Some? && itemId.Some? && !env.storeFails
             && !Ok(t.response)) ==>
      t == Answer(s, 404, Failed(NotFoundMsg))
    ensures !Ok(t.response) ==> t.next == s
  {
    match RequireAuth(s.sessions, cookie)
    case None => Answer(s, 401, Failed(UnauthorizedMsg))
    case Some(uid) =>
      match itemId
      case None => Answer(s, 400, Failed(InvalidIdMsg))
      case Some(id) =>
        if env.storeFails then Answer(s, 500, Failed(DeleteFailedMsg))
        else
          var (table, deleted) := Delete(s.items, uid, id);
          if deleted then Transition(s.(items := table), Reply(200, Succeeded))
          else Answer(s, 404, Failed(NotFoundMsg))
  }

  /** `handleRequest`: one request, handled atomically. GET `/` serves the
      login page and changes nothing; a route that matches no branch is
      never answered. Only registration touches the accounts, only login
      and logout touch the sessions, and only the three item mutations
      touch the items. */
  function Step(h: Hasher, s: State, req: Request, env: Env): (t: Transition)
    ensures req.AuthPage? ==> t == Transition(s, Reply(200, AuthHtml))
    ensures req.Unmatched? ==> t == Transition(s, NoResponse)
    ensures !req.Register? ==> t.next.accounts == s.accounts && t.next.nextAccountId == s.nextAccountId
    ensures !req.Login? && !req.Logout? ==> t.next.sessions == s.sessions
    ensures !req.CreateItem? && !req.UpdateItem? && !req.DeleteItem? ==>
      t.next.items == s.items && t.next.nextItemId == s.nextItemId
  {
    match req
    case AuthPage => Answer(s, 200, AuthHtml)
    case IndexPage(cookie) => HandleIndex(s, cookie, env)
    case Register(username, password) => HandleRegister(h, s, username, password, env)
    case Login(username, password) => HandleLogin(h, s, username, password, env)
    case Logout(cookie) => HandleLogout(s, cookie)
    case ListItems(cookie) => HandleList(s, cookie, env)
    case CreateItem(cookie, text) => HandleCreate(s, cookie, text, env)
    case UpdateItem(cookie, itemId, text) => HandleUpdate(s, cookie, itemId, text, env)
    case DeleteItem(cookie, itemId) => HandleDelete(s, cookie, itemId, env)
    case Unmatched => Transition(s, NoResponse)
  }

  /** The requests that go through `requireAuth`. */
  predicate IsItemApi(req: Request) {
    req.ListItems? || req.CreateItem? || req.UpdateItem? || req.DeleteItem?
  }

  /** The user an item request acts for, if its session lets it through. */
  function Actor(s: State, req: Request): Option<int> {
    if IsItemApi(req) then RequireAuth(s.sessions, req.cookie) else None
  }

  /** The final state and the responses of a sequence of requests. */
  datatype Trace = Trace(last: State, responses: seq<Response>)

  /** The server handles requests one after another, each on the state the
      previous one left; every request yields one entry of `responses`. */
  function Run(h: Hasher, s: State, steps: seq<(Request, Env)>): (r: Trace)
    ensures |r.responses| == |steps|
    decreases |steps|
  {
    if steps == [] then Trace(s, [])
    else
      var t := Step(h, s, steps[0].0, steps[0].1);
      var rest := Run(h, t.next, steps[1..]);
      Trace(rest.last, [t.response] + rest.responses)
  }
}

=== FILE: sessions.dfy ===
/** The process-wide `sessions` object: session token to user id. */
module Sessions {
  import opened Wrappers

  type SessionMap = map<string, int>

  /** A token `generateSessionId` can return: 16 random bytes in lower-case hex. */
  predicate IsSessionToken(tok: string) {
    |tok| == 32 && forall i :: 0 <= i < |tok| ==> tok[i] in "0123456789abcdef"
  }

  /** `checkAuth`: the `sessionId` cookie, when present, non-empty and a key
      of the map, resolves to its user id; anything else is null. */
  function CheckAuth(s: SessionMap, cookie: Option<string>): (r: Option<int>)
    ensures r.Some? <==> cookie.Some? && cookie.value != [] && cookie.value in s
    ensures r.Some? ==> r.value == s[cookie.value]
  {
    match cookie
    case None => None
    case Some(sid) => if sid == [] || sid !in s then None else Some(s[sid])
  }

  /** The user id `requireAuth` lets through. It rejects every falsy id, so a
      session bound to id 0 is turned away like a missing one; `None` is the
      branch that answers 401 (the `/index.html` route tests the same
      condition and answers 302 instead). */
  function RequireAuth(s: SessionMap, cookie: Option<string>): (r: Option<int>)
    ensures r.Some? <==> cookie.Some? && cookie.value != [] && cookie.value in s && s[cookie.value] != 0
    ensures r.Some? ==> CheckAuth(s, cookie) == r
  {
    var uid := CheckAuth(s, cookie);
    if uid.None? || uid.value == 0 then None else uid
  }

  /** `sessions[sessionId] = { userId }` after a successful login. */
  function Create(s: SessionMap, token: string, uid: int): (r: SessionMap)
    ensures r.Keys == s.Keys + {token}
    ensures r[token] == uid
    ensures forall t :: t in s && t != token ==> r[t] == s[t]
  {
    s[token := uid]
  }

  /** `/logout`: `delete sessions[sessionId]` when the cookie is non-empty and
      mapped; otherwise nothing happens. */
  function Destroy(s: SessionMap, cookie: Option<string>): (r: SessionMap)
    ensures cookie.Some? && cookie.value != [] ==> r.Keys == s.Keys - {cookie.value}
    ensures cookie.None? || cookie.value == [] ==> r.Keys == s.Keys
    ensures forall t :: t in r ==> t in s && r[t] == s[t]
  {
    match cookie
    case None => s
    case Some(sid) => if sid != [] && sid in s then s - {sid} else s
  }

  /** Logging out twice is logging out once. */
  lemma DestroyIdempotent(s: SessionMap, cookie: Option<string>)
    ensures Destroy(Destroy(s, cookie), cookie) == Destroy(s, cookie)
  {
  }

  /** After logout the token no longer authenticates. */
  lemma DestroyRevokes(s: SessionMap, cookie: Option<string>)
    ensures CheckAuth(Destroy(s, cookie), cookie).None?
  {
  }
}

=== FILE: wrappers.dfy ===
/** The optional value used for lookups that may find nothing (SQL queries
    returning no row, a cookie that is absent, `parseInt` giving `NaN`). */
module Wrappers {

  datatype Option<+T> = None | Some(value: T)
}
